=== FILE: README.md ===
# Login pipeline: a Dafny model

This project models the authentication core of a small Node.js login service. It has three parts:

- **`AuthUseCase.auth(email, password)`** checks a credential pair against four injected collaborators and, when they all agree, issues and stores an access token. The collaborators are `loadUserByEmailRepository.load`, `encrypter.compare`, `tokenGenerator.generate` and `updateAccessTokenRepository.update`. The use case is built with one configuration object and never checks it there. Each call looks every collaborator up again, and only once the one before it has answered so that the chain can go on.
- **`LoginRouter.route(httpRequest)`** checks the request, hands the credentials to the use case, and maps its answer to status 200, 400, 401 or 500. It never throws.
- **`TokenGenerator.generate(id)`** first rejects a missing secret, then a missing id, and otherwise returns whatever the JWT signer returns.

The use case and the router are modelled from their test files: `src/domain/useCases/auth-usecases.spec.js` and `src/presentation/routers/login-routter.spec.js`. The model follows what those tests require. The token generator is modelled from its code.

Modelling choices:

- Everything is a pure function over immutable values.
- A collaborator as found on a configuration object is a `Js.Slot`: `Absent`, `NoMethod` (present without the method the core calls) or `Present(op)`. The method `op` is an arbitrary function from its arguments to how the awaited promise settles (`Js.Settled`: `Resolves(value)` or `Rejects(error)`).
- `null`/`undefined` is `Js.None`. The truthiness test of the guards is `Js.Truthy`, under which `""` is falsy too.
- Each operation returns its outcome together with the collaborator calls it made. In the tests, spies record their arguments; in the model, those arguments are read from this trace.
- The error classes are the constructors of `Errors.AppError`. `src/utils/errors/invalid-param-error.js` declares its class as `MissingParamError`, but it sets the name `InvalidParamError` and the message `Invalid param: X`. The model keeps invalid-param and missing-param distinct. `Errors.NameDeterminesKind` proves that the `name` property alone tells the error kinds apart. `Errors.NameAndMessageIdentify` proves that an equal `name` and an equal known `message` identify the error.
- Module `Pipeline` puts the router over the use case, with the token generator as the use case's `tokenGenerator`. Nothing in the repository builds this composition; its lemmas state what it would answer.

Files: `js.dfy`, `errors.dfy`, `token_generator.dfy`, `auth_usecase.dfy`, `auth_scenarios.dfy` (the configurations the use-case tests build), `login_router.dfy`, `pipeline.dfy`.

## Model

| member | source | states |
|---|---|---|
| Errors.NameDeterminesKind | src/utils/errors/invalid-param-error.js:1-5 | two errors with the same `name` are of the same kind; in particular an invalid-param error never has the missing-param name, although its class is declared as `MissingParamError` |
| Errors.NameAndMessageIdentify | src/utils/errors/invalid-param-error.js:3-4 | two errors with equal `name` and equal known `message` are the same error; for invalid-param errors, equal messages name the same parameter |
| Errors.InvalidParamMessageRoundTrip | src/utils/errors/invalid-param-error.js:3 | the message `Invalid param: X` names exactly the parameter X it was built for (it parses back to X) |
| TokenGenerator.Generate | src/utils/helpers/token-generator.js:4-12 | rejects with MissingParam("secret") exactly when the stored secret is falsy, with MissingParam("id") exactly when the secret is there and the id is falsy; the signer is called exactly when neither guard fires, once, with the given id and the constructor's secret unchanged, and the result is the signer's value, `null` included |
| TokenGenerator.SecretCheckedFirst | src/utils/helpers/token-generator.js:9-10 | with neither secret nor id, the error names the secret |
| TokenGenerator.SignerScenarios | src/utils/helpers/token-generator.spec.js:11-41 | the generator's own test cases: null from the signer gives null, a token gives that token, the signer sees "any_id" and "secret", no secret or no id rejects naming it |
| AuthUseCase.Auth | src/domain/useCases/auth-usecases.spec.js:112-129 | no email: rejects MissingParam("email") with no collaborator called; email but no password: MissingParam("password"); no calls are made unless both are present; the trace is always an in-order start of load, compare, generate, update; `load` gets exactly the email, `compare` gets (password, stored hash), `generate` gets the user's id, `update` gets (that id, the generated token); and each call happens only after its predecessor answered so that the chain goes on |
| AuthUseCase.NoConfigIsEmptyConfig | src/domain/useCases/auth-usecases.spec.js:131-140 | `new AuthUseCase()` behaves like `new AuthUseCase({})` and rejects for lack of a repository |
| AuthUseCase.UnusableCollaboratorRejects | src/domain/useCases/auth-usecases.spec.js:142-146 | when the chain reaches a collaborator that is missing (MissingParam) or lacks its method (InvalidParam), `auth` rejects naming it, after calling only the collaborators before it |
| AuthUseCase.UnknownUserIsNull | src/domain/useCases/auth-usecases.spec.js:148-156 | a repository that finds no user gives null after the single lookup, whatever the other collaborators are |
| AuthUseCase.WrongPasswordIsNull | src/domain/useCases/auth-usecases.spec.js:158-166 | a password mismatch gives null; no token is generated or stored |
| AuthUseCase.SuccessfulChainIssuesToken | src/domain/useCases/auth-usecases.spec.js:177-204 | when every collaborator answers, the result is exactly the generated token, and `update` received the user's id and that same token |
| AuthUseCase.TokenIffChainSucceeds | src/domain/useCases/auth-usecases.spec.js:183-188 | `auth` resolves to token t if and only if both credentials are present, every stage succeeded, and the generator issued t |
| AuthUseCase.NullMeansNegativeAnswer | src/domain/useCases/auth-usecases.spec.js:148-166 | `auth` resolves to null only after a negative answer: no user, a password mismatch, or a generator that produced null |
| AuthUseCase.ThrowingCollaboratorRejects | src/domain/useCases/auth-usecases.spec.js:252-280 | a rejection from `load`, `compare`, `generate` or `update` becomes `auth`'s rejection, unchanged, and nothing is called after it |
| AuthUseCase.RejectionHasCause | src/domain/useCases/auth-usecases.spec.js:206-280 | every rejection is either a parameter error of `auth` itself or the unchanged rejection of the last collaborator called |
| AuthUseCaseScenarios.InvalidDependenciesRejectAsWritten | src/domain/useCases/auth-usecases.spec.js:206-250 | each of the nine configurations rejects; from the fourth on, six reject for want of an encrypter, five of which pass it under the key `encrypt` |
| AuthUseCaseScenarios.InvalidDependenciesRejectAsIntended | src/domain/useCases/auth-usecases.spec.js:206-250 | with the key `encrypter`, the nine configurations reject naming each collaborator in turn, missing before invalid |
| AuthUseCaseScenarios.ThrowingDependenciesRejectAsWritten | src/domain/useCases/auth-usecases.spec.js:252-280 | as written, only the first configuration reaches a throwing method; the other three reject with MissingParam("encrypter") |
| AuthUseCaseScenarios.ThrowingDependenciesRejectAsIntended | src/domain/useCases/auth-usecases.spec.js:252-280 | with the key `encrypter`, the i-th configuration rejects with the thrown error itself after i+1 collaborator calls |
| AuthUseCaseScenarios.SpiesSeeExpectedValues | src/domain/useCases/auth-usecases.spec.js:168-204 | with the tests' spies, `auth` returns "any_token", and the spies see the email, ("any_password", "hashed_password"), "any_id", and ("any_id", "any_token") |
| LoginRouter.Route | src/presentation/routers/login-routter.spec.js:20-120 | the status is one of 200, 400, 401, 500; 200 exactly when the body carries a token; a 500 body is always the bare ServerError; no request, no body or no usable use case gives 500 with nothing called; 400 only for a missing email or password, without calling the use case, and always for them once the request and the use case are usable (the email is named first); the use case is called exactly when it is usable and both credentials are present, with the body's email and password; 200 carries the non-empty token the use case returned, and a truthy token always gives 200 with it; 401 exactly when the use case resolved without a truthy token (null or empty), always with the Unauthorized body; a rejection gives 500 |
| LoginRouter.MissingEmailIsBadRequest | src/presentation/routers/login-routter.spec.js:21-31 | a body whose email is missing or empty gives 400 with MissingParam("email"), without calling the use case |
| LoginRouter.MissingPasswordIsBadRequest | src/presentation/routers/login-routter.spec.js:33-44 | a body with a non-empty email and a missing or empty password gives 400 with MissingParam("password"), without calling the use case |
| LoginRouter.MissingRequestIsServerError | src/presentation/routers/login-routter.spec.js:46-56 | no request, or a request without a body, gives 500 |
| LoginRouter.UnusableAuthIsServerError | src/presentation/routers/login-routter.spec.js:83-108 | a router without a use case, or with one lacking `auth`, gives 500 with ServerError |
| LoginRouter.AnswerDecidesResponse | src/presentation/routers/login-routter.spec.js:58-120 | with both credentials, the use case receives exactly the body's email and password; null gives 401 Unauthorized, a non-empty token t gives 200 with accessToken t, a rejection gives 500 |
| Pipeline.LoginSucceedsIffChainSucceeds | src/presentation/routers/login-routter.spec.js:109-120 | end to end, a login gives 200 with token t if and only if every collaborator stage succeeded and the generator issued the non-empty t |
| Pipeline.LoginUnauthorizedIffNoToken | src/presentation/routers/login-routter.spec.js:70-82 | end to end, with both credentials, the answer is 401 if and only if the use case resolved without a truthy token |
| Pipeline.LoginServerErrorHasCause | src/domain/useCases/auth-usecases.spec.js:252-280 | end to end, a 500 after the use case was called comes from an unusable collaborator or from the unchanged rejection of the last collaborator call, never from the use case's own credential guards |
| Pipeline.MissingSecretFailsLogin | src/utils/helpers/token-generator.js:9 | a token generator without a secret, inside an otherwise working use case, makes `auth` reject with MissingParam("secret") after three calls, and the login answer 500 |
| Pipeline.SignedTokenReachesClient | src/utils/helpers/token-generator.js:11 | with a real token generator, the token `auth` stores and returns is the signer's token for the user's id under the generator's secret |
| Pipeline.WorkedLogin | src/presentation/routers/login-routter.spec.js:109-120 | a worked login: the right password gives 200 with "tok1"; a wrong password or an unknown email gives 401 |

## Left out

- Order of the router's checks: the router is modelled from its tests, which fix the outcome of each check, but not whether a missing email or a misconfigured use case is reported first. `LoginRouter.Route` checks the request and body first, then the use case, then the email and the password.
- Email format check: the router tests never wire an email validator, so `LoginRouter.Route` has no 400 InvalidParam("email") branch. `src/utils/helpers/email-validator.spec.js` is not part of this model.
- Null token from the generator: the use case is modelled from its tests, which do not cover this case. A `null` from `generate` is passed to `update` and returned unchanged, because nothing checks it between generation and return.
- JS truthiness: only strings and the user record are modelled. A repository answer that is truthy but is not a user record is not modelled.
- Promises and scheduling: every awaited call is modelled as completed in sequence, and a rejection is an error result. Some of the tests do not await their `rejects` assertions, so those tests enforce little. The model states the rejection those tests intend.
- JWT signing and password hashing: these are uninterpreted. The signer is a parameter of type `(id, secret) -> token or null`, and it never throws. The encrypter is an arbitrary function.
- Error messages: the `message` texts of MissingParamError and ServerError are not modelled, because their source files are not part of this model. `Errors.Message` returns `None` for them.
- Pipeline: the end-to-end lemmas assume a router that awaits `auth`. The router tests call `route` without `await` and use a synchronous spy (src/presentation/routers/login-routter.spec.js:8-12, 28), while the use case's `auth` returns a promise. A router that did not await it would see a pending promise, which is truthy, and would answer 200. No wiring of the router to the use case is part of this model.
- Errors.Name: the names "MissingParamError" and "ServerError" are assumed from the class names the tests import (src/presentation/routers/login-routter.spec.js:2, 4). The files that set them are not part of this model.
- Repository and database: the MongoDB repository (`src/infra/respository/load-user-by-email-repository.spec.js`) is database I/O. It is an abstract `load` function here.
- `login.js`: Express and mongoose glue, outside the core.
- `jest.config.js`: test-runner configuration.

## Findings

| source | as written | input that shows it | evidently intended | confidence | as-written member | corrected member |
|---|---|---|---|---|---|---|
| src/domain/useCases/auth-usecases.spec.js:252-280 | three of the four "dependency throws" configurations pass the encrypter under the key `encrypt`. They reject because the encrypter is missing, so the throwing `compare`, `generate` and `update` are never reached | `{ loadUserByEmailRepository, encrypt: makeEncryptWithError() }` rejects with MissingParam("encrypter") and makes one call | key `encrypter`: each configuration rejects with the thrown error | high, not executed | AuthUseCaseScenarios.ThrowingDependenciesRejectAsWritten | AuthUseCaseScenarios.ThrowingDependenciesRejectAsIntended |
| src/domain/useCases/auth-usecases.spec.js:206-250 | from the fourth "invalid dependencies" configuration on, six reject for the same reason, a missing encrypter; five of them pass it under `encrypt`, so the checks on `tokenGenerator` and `updateAccessTokenRepository` are never exercised | `{ loadUserByEmailRepository, encrypt, tokenGenerator, updateAccessTokenRepository: {} }` rejects with MissingParam("encrypter") | key `encrypter`: each configuration rejects naming the next collaborator in the chain | high, not executed | AuthUseCaseScenarios.InvalidDependenciesRejectAsWritten | AuthUseCaseScenarios.InvalidDependenciesRejectAsIntended |

=== FILE: auth_scenarios.dfy ===
/** The configurations the use case's tests build, run through `Auth`.

    Those tests hand the encrypter over under the key `encrypt`, which is not
    one `auth` reads; read literally, such a configuration has no encrypter at
    all. Each suite is therefore stated twice: as written, and with the key
    the tests evidently meant (`encrypter`). */
module AuthUseCaseScenarios {
  import opened Js
  import opened Errors
  import opened AuthUseCase

  const Email := Some("any_email@email.com")
  const Password := Some("any_password")

  /** The spies of the tests' `makeSut`. */
  const SpyUser := User("any_id", "hashed_password")
  const LoadSpy: LoadOp := email => Resolves(Some(SpyUser))
  const EncrypterSpy: CompareOp := (password, hash) => Resolves(true)
  const TokenGeneratorSpy: GenerateOp := id => Resolves(Some("any_token"))
  const UpdateSpy: UpdateOp := (id, token) => Resolves(())

  /** The collaborators whose method throws a bare `Error`. */
  const ThrowingLoad: LoadOp := email => Rejects(Generic)
  const ThrowingCompare: CompareOp := (password, hash) => Rejects(Generic)
  const ThrowingGenerate: GenerateOp := id => Rejects(Generic)
  const ThrowingUpdate: UpdateOp := (id, token) => Rejects(Generic)

  function With(d: Deps): UseCase { UseCase(Some(d)) }

  /** The "invalid dependencies" suite as written: entries five to nine pass
      their encrypter under `encrypt`, so they carry none. */
  function InvalidDependenciesAsWritten(): seq<UseCase>
  {
    [ UseCase(None),
      With(EmptyDeps),
      With(Deps(NoMethod, Absent, Absent, Absent)),
      With(Deps(Present(LoadSpy), Absent, Absent, Absent)),
      With(Deps(Present(LoadSpy), Absent, Absent, Absent)),
      With(Deps(Present(LoadSpy), Absent, Absent, Absent)),
      With(Deps(Present(LoadSpy), Absent, NoMethod, Absent)),
      With(Deps(Present(LoadSpy), Absent, Present(TokenGeneratorSpy), Absent)),
      With(Deps(Present(LoadSpy), Absent, Present(TokenGeneratorSpy), NoMethod)) ]
  }

  /** The same suite with the encrypter under its proper key: each entry is
      one step further along the chain, and stops at its first unusable slot. */
  function InvalidDependenciesAsIntended(): seq<UseCase>
  {
    [ UseCase(None),
      With(EmptyDeps),
      With(Deps(NoMethod, Absent, Absent, Absent)),
      With(Deps(Present(LoadSpy), Absent, Absent, Absent)),
      With(Deps(Present(LoadSpy), NoMethod, Absent, Absent)),
      With(Deps(Present(LoadSpy), Present(EncrypterSpy), Absent, Absent)),
      With(Deps(Present(LoadSpy), Present(EncrypterSpy), NoMethod, Absent)),
      With(Deps(Present(LoadSpy), Present(EncrypterSpy), Present(TokenGeneratorSpy), Absent)),
      With(Deps(Present(LoadSpy), Present(EncrypterSpy), Present(TokenGeneratorSpy), NoMethod)) ]
  }

  /** Every configuration of the suite rejects; as written, the last six all
      for want of an encrypter. */
  lemma InvalidDependenciesRejectAsWritten()
    ensures forall i :: 0 <= i < |InvalidDependenciesAsWritten()| ==>
              Auth(InvalidDependenciesAsWritten()[i], Email, Password).result.Rejects?
    ensures forall i :: 3 <= i < |InvalidDependenciesAsWritten()| ==>
              Auth(InvalidDependenciesAsWritten()[i], Email, Password).result == Rejects(MissingParam("encrypter"))
  {
  }

  /** With the intended key, each configuration rejects naming exactly the
      collaborator it leaves out or leaves without its method. */
  lemma InvalidDependenciesRejectAsIntended()
    ensures |InvalidDependenciesAsIntended()| == 9
    ensures forall i :: 0 <= i < 9 ==>
              Auth(InvalidDependenciesAsIntended()[i], Email, Password).result
              == Rejects([ MissingParam("loadUserByEmailRepository"),
                           MissingParam("loadUserByEmailRepository"),
                           InvalidParam("loadUserByEmailRepository"),
                           MissingParam("encrypter"),
                           InvalidParam("encrypter"),
                           MissingParam("tokenGenerator"),
                           InvalidParam("tokenGenerator"),
                           MissingParam("updateAccessTokenRepository"),
                           InvalidParam("updateAccessTokenRepository") ][i])
  {
  }

  /** The "dependency throws" suite as written: only the first entry reaches
      a throwing method; the other three stop at the missing encrypter. */
  function ThrowingDependenciesAsWritten(): seq<UseCase>
  {
    [ With(Deps(Present(ThrowingLoad), Absent, Absent, Absent)),
      With(Deps(Present(LoadSpy), Absent, Absent, Absent)),
      With(Deps(Present(LoadSpy), Absent, Present(ThrowingGenerate), Absent)),
      With(Deps(Present(LoadSpy), Absent, Present(TokenGeneratorSpy), Present(ThrowingUpdate))) ]
  }

  function ThrowingDependenciesAsIntended(): seq<UseCase>
  {
    [ With(Deps(Present(ThrowingLoad), Absent, Absent, Absent)),
      With(Deps(Present(LoadSpy), Present(ThrowingCompare), Absent, Absent)),
      With(Deps(Present(LoadSpy), Present(EncrypterSpy), Present(ThrowingGenerate), Absent)),
      With(Deps(Present(LoadSpy), Present(EncrypterSpy), Present(TokenGeneratorSpy), Present(ThrowingUpdate))) ]
  }

  /** As written, the suite passes, but three of its four entries reject
      because the encrypter is missing, not because a collaborator threw. */
  lemma ThrowingDependenciesRejectAsWritten()
    ensures Auth(ThrowingDependenciesAsWritten()[0], Email, Password).result == Rejects(Generic)
    ensures forall i :: 1 <= i < |ThrowingDependenciesAsWritten()| ==>
              Auth(ThrowingDependenciesAsWritten()[i], Email, Password).result == Rejects(MissingParam("encrypter"))
  {
  }

  /** With the intended key, every entry rejects with the thrown error itself,
      raised by the collaborator at that position of the chain. */
  lemma ThrowingDependenciesRejectAsIntended()
    ensures |ThrowingDependenciesAsIntended()| == 4
    ensures forall i :: 0 <= i < 4 ==>
              var r := Auth(ThrowingDependenciesAsIntended()[i], Email, Password);
              r.result == Rejects(Generic) && |r.calls| == i + 1
  {
  }

  /** The happy path of `makeSut`: the token comes back, and every spy saw
      the values the tests expect. */
  lemma SpiesSeeExpectedValues()
    ensures Auth(With(Deps(Present(LoadSpy), Present(EncrypterSpy), Present(TokenGeneratorSpy), Present(UpdateSpy))),
                 Some("valid_email@email.com"), Some("any_password"))
            == Run(Resolves(Some("any_token")),
                   [ LoadCall("valid_email@email.com"),
                     CompareCall("any_password", "hashed_password"),
                     GenerateCall("any_id"),
                     UpdateCall("any_id", Some("any_token")) ])
  {
  }
}

=== FILE: auth_usecase.dfy ===
/** `AuthUseCase`: checks an email/password pair against four injected
    collaborators and, when they all agree, issues and stores an access token.

    The use case is constructed with one configuration object and never checks
    it there; each call to `auth` looks every collaborator up again, and only
    once the one before it has answered in a way that lets the chain go on. */
module AuthUseCase {
  import opened Js
  import opened Errors

  /** A user record as the repository returns it. */
  datatype User = User(id: string, password: string)

  /** The one method `auth` calls on each collaborator, as a pure function of
      its arguments to how the awaited promise settles. */
  type LoadOp = string -> Settled<Option<User>, AppError>
  type CompareOp = (string, string) -> Settled<bool, AppError>
  type GenerateOp = string -> Settled<Option<string>, AppError>
  type UpdateOp = (string, Option<string>) -> Settled<(), AppError>

  /** The configuration object, one slot per named key. */
  datatype Deps = Deps(
    loadUserByEmailRepository: Slot<LoadOp>,
    encrypter: Slot<CompareOp>,
    tokenGenerator: Slot<GenerateOp>,
    updateAccessTokenRepository: Slot<UpdateOp>)

  /** `{}`: a configuration object with none of the four keys. */
  const EmptyDeps := Deps(Absent, Absent, Absent, Absent)

  /** `new AuthUseCase(config)`, where `config` itself may be left out. */
  datatype UseCase = UseCase(config: Option<Deps>)

  /** The configuration `auth` consults: a missing one has no collaborators. */
  function DepsOf(uc: UseCase): Deps
  {
    match uc.config
    case None => EmptyDeps
    case Some(d) => d
  }

  /** One collaborator call, with the arguments it received. */
  datatype Call =
    | LoadCall(email: string)
    | CompareCall(password: string, hashedPassword: string)
    | GenerateCall(userId: string)
    | UpdateCall(userId: string, accessToken: Option<string>)

  /** How `auth` settles, and the collaborator calls it made, in order. */
  datatype Run = Run(result: Settled<Option<string>, AppError>, calls: seq<Call>)

  /** The error for a collaborator that cannot be used: missing, or present
      without the method `auth` needs. */
  function SlotError<T>(s: Slot<T>, name: string): AppError
  {
    if s.Absent? then MissingParam(name) else InvalidParam(name)
  }

  // Predicates naming how far a configuration lets the chain go.

  /** The repository is usable and `load(email)` resolves to a user. */
  predicate Finds(d: Deps, email: string)
  {
    d.loadUserByEmailRepository.Present?
    && var reply := d.loadUserByEmailRepository.op(email);
    reply.Resolves? && reply.value.Some?
  }

  function LoadedUser(d: Deps, email: string): User
    requires Finds(d, email)
  {
    d.loadUserByEmailRepository.op(email).value.value
  }

  /** The encrypter is usable and `compare(password, hash)` resolves to true. */
  predicate Accepts(d: Deps, password: string, hash: string)
  {
    d.encrypter.Present? && d.encrypter.op(password, hash) == Resolves(true)
  }

  /** The token generator is usable and `generate(id)` resolves. */
  predicate Issues(d: Deps, id: string)
  {
    d.tokenGenerator.Present? && d.tokenGenerator.op(id).Resolves?
  }

  function IssuedToken(d: Deps, id: string): Option<string>
    requires Issues(d, id)
  {
    d.tokenGenerator.op(id).value
  }

  /** The update repository is usable and `update(id, token)` resolves. */
  predicate Stores(d: Deps, id: string, token: Option<string>)
  {
    d.updateAccessTokenRepository.Present? && d.updateAccessTokenRepository.op(id, token).Resolves?
  }

  /** Every collaborator answers so that the chain runs to its end. */
  predicate Succeeds(d: Deps, email: string, password: string)
  {
    && Finds(d, email)
    && var u := LoadedUser(d, email);
    && Accepts(d, password, u.password)
    && Issues(d, u.id)
    && Stores(d, u.id, IssuedToken(d, u.id))
  }

  /** `calls` is a start of load, compare, generate, update: each made with
      the arguments the contract fixes, to a usable collaborator, and only
      after its predecessor answered so that the chain goes on. */
  predicate Chain(d: Deps, email: string, password: string, calls: seq<Call>)
  {
    && |calls| <= 4
    && (|calls| >= 1 ==>
          d.loadUserByEmailRepository.Present? && calls[0] == LoadCall(email))
    && (|calls| >= 2 ==>
          Finds(d, email) && d.encrypter.Present?
          && calls[1] == CompareCall(password, LoadedUser(d, email).password))
    && (|calls| >= 3 ==>
          Finds(d, email) && Accepts(d, password, LoadedUser(d, email).password)
          && d.tokenGenerator.Present? && calls[2] == GenerateCall(LoadedUser(d, email).id))
    && (|calls| >= 4 ==>
          Finds(d, email) && Issues(d, LoadedUser(d, email).id)
          && d.updateAccessTokenRepository.Present?
          && calls[3] == UpdateCall(LoadedUser(d, email).id, IssuedToken(d, LoadedUser(d, email).id)))
  }

  /** The full trace of a chain that runs to its end. */
  function FullChain(d: Deps, email: string, password: string): seq<Call>
    requires Finds(d, email) && Issues(d, LoadedUser(d, email).id)
  {
    var u := LoadedUser(d, email);
    [LoadCall(email), CompareCall(password, u.password), GenerateCall(u.id), UpdateCall(u.id, IssuedToken(d, u.id))]
  }

  /** `auth(email, password)`. */
  function Auth(uc: UseCase, email: Option<string>, password: Option<string>): (r: Run)
    ensures !Truthy(email) ==> r == Run(Rejects(MissingParam("email")), [])
    ensures Truthy(email) && !Truthy(password) ==> r == Run(Rejects(MissingParam("password")), [])
    ensures r.calls != [] ==> Truthy(email) && Truthy(password)
    ensures Truthy(email) && Truthy(password) ==> Chain(DepsOf(uc), email.value, password.value, r.calls)
  {
    if !Truthy(email) then Run(Rejects(MissingParam("email")), [])
    else if !Truthy(password) then Run(Rejects(MissingParam("password")), [])
    else
      var d := DepsOf(uc);
      match d.loadUserByEmailRepository
      case Present(load) =>
        var calls := [LoadCall(email.value)];
        (match load(email.value)
         case Rejects(e) => Run(Rejects(e), calls)
         case Resolves(None) => Run(Resolves(None), calls)
         case Resolves(Some(user)) => CheckPassword(d, password.value, user, calls))
      case _ => Run(Rejects(SlotError(d.loadUserByEmailRepository, "loadUserByEmailRepository")), [])
  }

  /** The stage after a user was found: compare the passwords. */
  function CheckPassword(d: Deps, password: string, user: User, calls: seq<Call>): Run
  {
    match d.encrypter
    case Present(compare) =>
      var calls' := calls + [CompareCall(password, user.password)];
      (match compare(password, user.password)
       case Rejects(e) => Run(Rejects(e), calls')
       case Resolves(false) => Run(Resolves(None), calls')
       case Resolves(true) => IssueToken(d, user, calls'))
    case _ => Run(Rejects(SlotError(d.encrypter, "encrypter")), calls)
  }

  /** The stage after the password matched: generate a token for the user. */
  function IssueToken(d: Deps, user: User, calls: seq<Call>): Run
  {
    match d.tokenGenerator
    case Present(generate) =>
      var calls' := calls + [GenerateCall(user.id)];
      (match generate(user.id)
       case Rejects(e) => Run(Rejects(e), calls')
       case Resolves(token) => StoreToken(d, user, token, calls'))
    case _ => Run(Rejects(SlotError(d.tokenGenerator, "tokenGenerator")), calls)
  }

  /** The last stage: store the token against the user, then hand it back. */
  function StoreToken(d: Deps, user: User, token: Option<string>, calls: seq<Call>): Run
  {
    match d.updateAccessTokenRepository
    case Present(update) =>
      var calls' := calls + [UpdateCall(user.id, token)];
      (match update(user.id, token)
       case Rejects(e) => Run(Rejects(e), calls')
       case Resolves(_) => Run(Resolves(token), calls'))
    case _ => Run(Rejects(SlotError(d.updateAccessTokenRepository, "updateAccessTokenRepository")), calls)
  }

  // Properties of `auth` over every configuration and every input.

  /** `new AuthUseCase()` and `new AuthUseCase({})` behave alike: with both
      credentials given, both reject because there is no repository. */
  lemma NoConfigIsEmptyConfig(email: Option<string>, password: Option<string>)
    ensures Auth(UseCase(None), email, password) == Auth(UseCase(Some(EmptyDeps)), email, password)
    ensures Truthy(email) && Truthy(password) ==>
              Auth(UseCase(None), email, password) == Run(Rejects(MissingParam("loadUserByEmailRepository")), [])
  {
  }

  /** Once the chain reaches a collaborator that is missing, or present without
      its method, `auth` rejects with an error naming it (missing-param versus
      invalid-param), having called only the collaborators before it. */
  lemma UnusableCollaboratorRejects(uc: UseCase, email: string, password: string)
    requires email != "" && password != ""
    ensures var d := DepsOf(uc); var r := Auth(uc, Some(email), Some(password));
      && (!d.loadUserByEmailRepository.Present? ==>
            r == Run(Rejects(SlotError(d.loadUserByEmailRepository, "loadUserByEmailRepository")), []))
      && (Finds(d, email) && !d.encrypter.Present? ==>
            r == Run(Rejects(SlotError(d.encrypter, "encrypter")), [LoadCall(email)]))
      && (Finds(d, email) && Accepts(d, password, LoadedUser(d, email).password)
          && !d.tokenGenerator.Present? ==>
            r == Run(Rejects(SlotError(d.tokenGenerator, "tokenGenerator")),
                     [LoadCall(email), CompareCall(password, LoadedUser(d, email).password)]))
      && (Finds(d, email) && Accepts(d, password, LoadedUser(d, email).password)
          && Issues(d, LoadedUser(d, email).id) && !d.updateAccessTokenRepository.Present? ==>
            r == Run(Rejects(SlotError(d.updateAccessTokenRepository, "updateAccessTokenRepository")),
                     FullChain(d, email, password)[..3]))
  {
  }

  /** A repository that finds no user makes `auth` resolve to null after the
      one lookup, whatever the other collaborators are. */
  lemma UnknownUserIsNull(uc: UseCase, email: string, password: string)
    requires email != "" && password != ""
    requires DepsOf(uc).loadUserByEmailRepository.Present?
    requires DepsOf(uc).loadUserByEmailRepository.op(email) == Resolves(None)
    ensures Auth(uc, Some(email), Some(password)) == Run(Resolves(None), [LoadCall(email)])
  {
  }

  /** An encrypter that says the password does not match makes `auth` resolve
      to null; no token is generated or stored. */
  lemma WrongPasswordIsNull(uc: UseCase, email: string, password: string)
    requires email != "" && password != ""
    requires Finds(DepsOf(uc), email) && DepsOf(uc).encrypter.Present?
    requires DepsOf(uc).encrypter.op(password, LoadedUser(DepsOf(uc), email).password) == Resolves(false)
    ensures Auth(uc, Some(email), Some(password))
            == Run(Resolves(None), [LoadCall(email), CompareCall(password, LoadedUser(DepsOf(uc), email).password)])
  {
  }

  /** When every collaborator answers, `auth` resolves to exactly the token
      the generator issued for the user's id, after storing that same token
      against that id. */
  lemma SuccessfulChainIssuesToken(uc: UseCase, email: string, password: string)
    requires email != "" && password != ""
    requires Succeeds(DepsOf(uc), email, password)
    ensures var d := DepsOf(uc);
            Auth(uc, Some(email), Some(password))
            == Run(Resolves(IssuedToken(d, LoadedUser(d, email).id)), FullChain(d, email, password))
  {
  }

  /** `auth` resolves to a token only when the whole chain succeeded and the
      generator issued that very token, and conversely. */
  lemma TokenIffChainSucceeds(uc: UseCase, email: Option<string>, password: Option<string>, token: string)
    ensures Auth(uc, email, password).result == Resolves(Some(token))
            <==> && Truthy(email) && Truthy(password)
                 && Succeeds(DepsOf(uc), email.value, password.value)
                 && IssuedToken(DepsOf(uc), LoadedUser(DepsOf(uc), email.value).id) == Some(token)
  {
  }

  /** `auth` resolves to null only after a negative answer: no user, a
      password mismatch, or a generator that itself produced null. */
  lemma NullMeansNegativeAnswer(uc: UseCase, email: Option<string>, password: Option<string>)
    requires Auth(uc, email, password).result == Resolves(None)
    ensures Truthy(email) && Truthy(password)
    ensures var d := DepsOf(uc);
            || (d.loadUserByEmailRepository.Present?
                && d.loadUserByEmailRepository.op(email.value) == Resolves(None))
            || (Finds(d, email.value) && d.encrypter.Present?
                && d.encrypter.op(password.value, LoadedUser(d, email.value).password) == Resolves(false))
            || (Succeeds(d, email.value, password.value)
                && IssuedToken(d, LoadedUser(d, email.value).id) == None)
  {
  }

  /** The rejection a collaborator's method produced, if the call `c` rejects. */
  predicate RejectedWith(d: Deps, c: Call, e: AppError)
  {
    match c
    case LoadCall(email) =>
      d.loadUserByEmailRepository.Present? && d.loadUserByEmailRepository.op(email) == Rejects(e)
    case CompareCall(password, hash) =>
      d.encrypter.Present? && d.encrypter.op(password, hash) == Rejects(e)
    case GenerateCall(id) =>
      d.tokenGenerator.Present? && d.tokenGenerator.op(id) == Rejects(e)
    case UpdateCall(id, token) =>
      d.updateAccessTokenRepository.Present? && d.updateAccessTokenRepository.op(id, token) == Rejects(e)
  }

  /** A collaborator that rejects makes `auth` reject with that same error,
      unchanged, as the last thing it does: there is no recovery. */
  lemma ThrowingCollaboratorRejects(uc: UseCase, email: string, password: string, e: AppError)
    requires email != "" && password != ""
    ensures var d := DepsOf(uc); var r := Auth(uc, Some(email), Some(password));
      && (d.loadUserByEmailRepository.Present? && d.loadUserByEmailRepository.op(email) == Rejects(e) ==>
            r == Run(Rejects(e), [LoadCall(email)]))
      && (Finds(d, email) && RejectedWith(d, CompareCall(password, LoadedUser(d, email).password), e) ==>
            r == Run(Rejects(e), [LoadCall(email), CompareCall(password, LoadedUser(d, email).password)]))
      && (Finds(d, email) && Accepts(d, password, LoadedUser(d, email).password)
          && RejectedWith(d, GenerateCall(LoadedUser(d, email).id), e) ==>
            r == Run(Rejects(e), [LoadCall(email), CompareCall(password, LoadedUser(d, email).password),
                                  GenerateCall(LoadedUser(d, email).id)]))
      && (Finds(d, email) && Accepts(d, password, LoadedUser(d, email).password)
          && Issues(d, LoadedUser(d, email).id)
          && RejectedWith(d, FullChain(d, email, password)[3], e) ==>
            r == Run(Rejects(e), FullChain(d, email, password)))
  {
  }

  /** Every rejection of `auth` is either one of its own parameter errors or
      the unchanged rejection of the last collaborator call it made. */
  lemma RejectionHasCause(uc: UseCase, email: Option<string>, password: Option<string>, e: AppError)
    requires Auth(uc, email, password).result == Rejects(e)
    ensures var r := Auth(uc, email, password);
            || (r.calls == [] && e in {MissingParam("email"), MissingParam("password"),
                                       MissingParam("loadUserByEmailRepository"),
                                       InvalidParam("loadUserByEmailRepository")})
            || (r.calls != [] && e in {MissingParam("encrypter"), InvalidParam("encrypter"),
                                       MissingParam("tokenGenerator"), InvalidParam("tokenGenerator"),
                                       MissingParam("updateAccessTokenRepository"),
                                       InvalidParam("updateAccessTokenRepository")})
            || (r.calls != [] && RejectedWith(DepsOf(uc), r.calls[|r.calls| - 1], e))
  {
  }
}

=== FILE: errors.dfy ===
/** The error vocabulary shared by the use case, the token generator and the
    router. Each error class of the repository is one constructor; `Generic`
    is the bare `new Error()` a misbehaving collaborator throws. */
module Errors {
  import opened Js

  datatype AppError =
    | MissingParam(param: string)
    | InvalidParam(param: string)
    | Unauthorized
    | ServerError
    | Generic

  /** The `name` property each error class sets. */
  function Name(e: AppError): string
  {
    match e
    case MissingParam(_) => "MissingParamError"
    case InvalidParam(_) => "InvalidParamError"
    case Unauthorized => "UnauthorizedError"
    case ServerError => "ServerError"
    case Generic => "Error"
  }

  const InvalidParamPrefix := "Invalid param: "

  /** The `message` property, where the class that builds it is part of this
      model; `None` for the two classes whose files are not. */
  function Message(e: AppError): Option<string>
  {
    match e
    case InvalidParam(p) => Some(InvalidParamPrefix + p)
    case Unauthorized => Some("unauthorized")
    case Generic => Some("")
    case MissingParam(_) => None
    case ServerError => None
  }

  /** Reads the parameter name back out of an invalid-param message. */
  function InvalidParamName(message: string): (r: Option<string>)
    ensures r.Some? ==> InvalidParamPrefix + r.value == message
  {
    var n := |InvalidParamPrefix|;
    if n <= |message| && message[..n] == InvalidParamPrefix then Some(message[n..]) else None
  }

  /** The invalid-param message names exactly the parameter it was built for. */
  lemma {:induction false} InvalidParamMessageRoundTrip(p: string)
    ensures InvalidParamName(Message(InvalidParam(p)).value) == Some(p)
  {
    var m := InvalidParamPrefix + p;
    assert m[..|InvalidParamPrefix|] == InvalidParamPrefix;
    assert m[|InvalidParamPrefix|..] == p;
  }

  /** The `name` property alone tells the error kinds apart: in particular an
      invalid-param error never carries the missing-param name, despite the
      class name the invalid-param file declares. */
  lemma NameDeterminesKind(a: AppError, b: AppError)
    requires Name(a) == Name(b)
    ensures a.MissingParam? <==> b.MissingParam?
    ensures a.InvalidParam? <==> b.InvalidParam?
    ensures a.Unauthorized? <==> b.Unauthorized?
    ensures a.ServerError? <==> b.ServerError?
  {
  }

  /** Two errors with the same `name` and a known, equal `message` are the
      same error; for invalid-param errors, equal messages name the same
      parameter. */
  lemma {:induction false} NameAndMessageIdentify(a: AppError, b: AppError)
    requires Message(a).Some?
    requires Name(a) == Name(b) && Message(a) == Message(b)
    ensures a == b
  {
    if a.InvalidParam? {
      InvalidParamMessageRoundTrip(a.param);
      InvalidParamMessageRoundTrip(b.param);
    }
  }
}

=== FILE: js.dfy ===
/** JavaScript value conventions the authentication core relies on: optional
    values, the truthiness test its guards use, promise outcomes, and the
    duck-typed collaborator slots it looks up on its configuration objects. */
module Js {

  /** A value that may be `null`/`undefined`. */
  datatype Option<+T> = None | Some(value: T)

  /** How an awaited promise settles: with a value, or rejected with an error. */
  datatype Settled<+T, +E> = Resolves(value: T) | Rejects(error: E)

  /** A collaborator as found on a configuration object: missing altogether,
      present but without the method the core calls, or present with it. */
  datatype Slot<+T> = Absent | NoMethod | Present(op: T)

  /** `!!s` for a string that may be missing: `undefined`, `null` and `""`
      are all falsy. */
  predicate Truthy(s: Option<string>)
  {
    s.Some? && s.value != ""
  }
}

=== FILE: login_router.dfy ===
/** `LoginRouter`: checks an inbound login request, hands the credentials to
    the authentication use case, and turns whatever comes back (a token, null,
    or a rejection) into a response with one of four status codes. It never
    throws: every failure becomes a response. */
module LoginRouter {
  import opened Js
  import opened Errors

  /** `httpRequest.body`, with the two fields the router reads. */
  datatype Body = Body(email: Option<string>, password: Option<string>)

  /** `httpRequest`, whose body may be missing. */
  datatype Request = Request(body: Option<Body>)

  /** `authUseCase.auth(email, password)`, as the promise it settles to. */
  type Authenticate = (string, string) -> Settled<Option<string>, AppError>

  /** `new LoginRouter(authUseCase)`. */
  datatype Router = Router(authUseCase: Slot<Authenticate>)

  datatype ResponseBody = ErrorBody(error: AppError) | TokenBody(accessToken: string)

  datatype Response = Response(statusCode: int, body: ResponseBody)

  /** The credentials the use case was called with. */
  datatype AuthCall = AuthCall(email: string, password: string)

  /** The response, and the call to the use case the router made, if any. */
  datatype Routed = Routed(response: Response, authCall: Option<AuthCall>)

  function BadRequest(e: AppError): Response { Response(400, ErrorBody(e)) }
  const ServerFault := Response(500, ErrorBody(ServerError))
  const Unauthorized401 := Response(401, ErrorBody(Unauthorized))

  /** The use case's answer to the call the router made. */
  function Answer(router: Router, call: AuthCall): Settled<Option<string>, AppError>
    requires router.authUseCase.Present?
  {
    router.authUseCase.op(call.email, call.password)
  }

  /** The request carries a body with both credentials. */
  predicate WellFormed(request: Option<Request>)
  {
    request.Some? && request.value.body.Some?
    && Truthy(request.value.body.value.email) && Truthy(request.value.body.value.password)
  }

  /** `route(httpRequest)`. */
  function Route(router: Router, request: Option<Request>): (r: Routed)
    // The router answers in a fixed vocabulary.
    ensures r.response.statusCode in {200, 400, 401, 500}
    ensures r.response.statusCode == 200 <==> r.response.body.TokenBody?
    // A server error never carries the underlying error.
    ensures r.response.statusCode == 500 ==> r.response.body == ErrorBody(ServerError)
    ensures r.response.statusCode == 400 ==>
              r.authCall.None? && r.response.body.error in {MissingParam("email"), MissingParam("password")}
    // The use case is called exactly when the request is usable, with its credentials.
    ensures r.authCall.Some? <==> router.authUseCase.Present? && WellFormed(request)
    ensures r.authCall.Some? ==>
              r.authCall.value == AuthCall(request.value.body.value.email.value, request.value.body.value.password.value)
    // What the answer maps to.
    ensures r.response.statusCode == 200 ==>
              r.authCall.Some? && r.response.body.accessToken != ""
              && Answer(router, r.authCall.value) == Resolves(Some(r.response.body.accessToken))
    ensures r.response.statusCode == 401 <==>
              r.authCall.Some? && Answer(router, r.authCall.value).Resolves?
              && !Truthy(Answer(router, r.authCall.value).value)
    ensures r.response.statusCode == 401 ==> r.response.body == ErrorBody(Unauthorized)
    // An unusable request or use case is a server error, and nothing is called.
    ensures request.None? || request.value.body.None? || !router.authUseCase.Present? ==>
              r == Routed(ServerFault, None)
    // A truthy token is answered with 200 carrying it.
    ensures r.authCall.Some? && Answer(router, r.authCall.value).Resolves?
            && Truthy(Answer(router, r.authCall.value).value) ==>
              r.response == Response(200, TokenBody(Answer(router, r.authCall.value).value.value))
    // A usable request with a falsy field gets a 400 naming the first one missing.
    ensures router.authUseCase.Present? && request.Some? && request.value.body.Some?
            && !Truthy(request.value.body.value.email) ==>
              r.response == BadRequest(MissingParam("email"))
    ensures router.authUseCase.Present? && request.Some? && request.value.body.Some?
            && Truthy(request.value.body.value.email) && !Truthy(request.value.body.value.password) ==>
              r.response == BadRequest(MissingParam("password"))
    ensures r.authCall.Some? && Answer(router, r.authCall.value).Rejects? ==> r.response == ServerFault
  {
    if request.None? || request.value.body.None? then Routed(ServerFault, None)
    else if !router.authUseCase.Present? then Routed(ServerFault, None)
    else
      var body := request.value.body.value;
      if !Truthy(body.email) then Routed(BadRequest(MissingParam("email")), None)
      else if !Truthy(body.password) then Routed(BadRequest(MissingParam("password")), None)
      else
        var call := AuthCall(body.email.value, body.password.value);
        match router.authUseCase.op(call.email, call.password)
        case Rejects(_) => Routed(ServerFault, Some(call))
        case Resolves(token) =>
          if Truthy(token) then Routed(Response(200, TokenBody(token.value)), Some(call))
          else Routed(Unauthorized401, Some(call))
  }

  /** A body without an email, or with an empty one, gets a 400 naming the
      email, before the use case is consulted. */
  lemma MissingEmailIsBadRequest(auth: Authenticate, email: Option<string>, password: Option<string>)
    requires !Truthy(email)
    ensures Route(Router(Present(auth)), Some(Request(Some(Body(email, password)))))
            == Routed(Response(400, ErrorBody(MissingParam("email"))), None)
  {
  }

  /** A body with an email but no password, or an empty one, gets a 400
      naming the password. */
  lemma MissingPasswordIsBadRequest(auth: Authenticate, email: string, password: Option<string>)
    requires email != "" && !Truthy(password)
    ensures Route(Router(Present(auth)), Some(Request(Some(Body(Some(email), password)))))
            == Routed(Response(400, ErrorBody(MissingParam("password"))), None)
  {
  }

  /** No request, or a request without a body, gets a 500, whatever the
      router was built with. */
  lemma MissingRequestIsServerError(router: Router)
    ensures Route(router, None) == Routed(ServerFault, None)
    ensures Route(router, Some(Request(None))) == Routed(ServerFault, None)
  {
  }

  /** A router built without a use case, or with one lacking `auth`, answers
      500 with a server error. */
  lemma UnusableAuthIsServerError(email: Option<string>, password: Option<string>)
    ensures Route(Router(Absent), Some(Request(Some(Body(email, password))))) == Routed(ServerFault, None)
    ensures Route(Router(NoMethod), Some(Request(Some(Body(email, password))))) == Routed(ServerFault, None)
  {
  }

  /** With a usable use case and both credentials, the outcome is decided by
      its answer alone: a token gives 200 carrying that token, null gives 401,
      a rejection gives 500. */
  lemma AnswerDecidesResponse(auth: Authenticate, email: string, password: string)
    requires email != "" && password != ""
    ensures var r := Route(Router(Present(auth)), Some(Request(Some(Body(Some(email), Some(password))))));
            && r.authCall == Some(AuthCall(email, password))
            && (auth(email, password) == Resolves(None) ==> r.response == Response(401, ErrorBody(Unauthorized)))
            && (forall t :: auth(email, password) == Resolves(Some(t)) && t != "" ==>
                  r.response == Response(200, TokenBody(t)))
            && (auth(email, password).Rejects? ==> r.response == Response(500, ErrorBody(ServerError)))
  {
  }
}

=== FILE: pipeline.dfy ===
/** The router over the authentication use case, with the token generator
    as the use case's `tokenGenerator`. Nothing in the repository builds this
    composition; these lemmas state what it would answer. */
module Pipeline {
  import opened Js
  import opened Errors
  import TokenGenerator
  import opened AuthUseCase
  import opened LoginRouter

  /** The use case, seen through the one method the router calls on it. */
  function UseCaseAsAuth(uc: UseCase): Authenticate
  {
    (email, password) => Auth(uc, Some(email), Some(password)).result
  }

  /** The token generator, seen through the one method the use case calls on it. */
  function GeneratorAsCollaborator(g: TokenGenerator.Generator, sign: TokenGenerator.Signer): AuthUseCase.GenerateOp
  {
    id => TokenGenerator.Generate(g, Some(id), sign).result
  }

  function LoginRequest(email: string, password: string): Option<Request>
  {
    Some(Request(Some(Body(Some(email), Some(password)))))
  }

  /** End to end, a login answers 200 with token `t` exactly when the whole
      chain of collaborators succeeded and the generator issued a non-empty
      `t`; no partial success ever reaches the client as a token. */
  lemma LoginSucceedsIffChainSucceeds(uc: UseCase, email: string, password: string, t: string)
    ensures Route(Router(Present(UseCaseAsAuth(uc))), LoginRequest(email, password)).response
              == Response(200, TokenBody(t))
            <==> && email != "" && password != "" && t != ""
                 && Succeeds(DepsOf(uc), email, password)
                 && IssuedToken(DepsOf(uc), LoadedUser(DepsOf(uc), email).id) == Some(t)
  {
    TokenIffChainSucceeds(uc, Some(email), Some(password), t);
  }

  /** End to end, a login with both credentials answers 401 exactly when the
      use case resolved without a usable token: no user, a wrong password, or
      an empty token. */
  lemma LoginUnauthorizedIffNoToken(uc: UseCase, email: string, password: string)
    requires email != "" && password != ""
    ensures Route(Router(Present(UseCaseAsAuth(uc))), LoginRequest(email, password)).response.statusCode == 401
            <==> var a := Auth(uc, Some(email), Some(password)).result;
                 a.Resolves? && !Truthy(a.value)
  {
  }

  /** End to end, a 500 after the use case was consulted is never the use
      case's own input guard: the router has already checked both
      credentials, so the cause is an unusable collaborator or the unchanged
      rejection of the last collaborator call. */
  lemma LoginServerErrorHasCause(uc: UseCase, request: Option<Request>)
    ensures var r := Route(Router(Present(UseCaseAsAuth(uc))), request);
            var run := if r.authCall.Some? then Auth(uc, Some(r.authCall.value.email), Some(r.authCall.value.password))
                       else Run(Resolves(None), []);
            r.authCall.Some? && r.response.statusCode == 500 ==>
              && run.result.Rejects?
              && (|| ((run.result.error.MissingParam? || run.result.error.InvalidParam?)
                      && run.result.error.param in {"loadUserByEmailRepository", "encrypter", "tokenGenerator",
                                                    "updateAccessTokenRepository"})
                  || (run.calls != [] && RejectedWith(DepsOf(uc), run.calls[|run.calls| - 1], run.result.error)))
  {
    var r := Route(Router(Present(UseCaseAsAuth(uc))), request);
    if r.authCall.Some? && r.response.statusCode == 500 {
      var call := r.authCall.value;
      var run := Auth(uc, Some(call.email), Some(call.password));
      assert run.result.Rejects?;
      RejectionHasCause(uc, Some(call.email), Some(call.password), run.result.error);
    }
  }

  /** A token generator built without a secret, wired into an otherwise
      working use case, makes `auth` reject with the generator's own
      missing-secret error after the password check, and the login answer 500. */
  lemma MissingSecretFailsLogin(load: LoadOp, compare: CompareOp, update: UpdateOp,
                                                   sign: TokenGenerator.Signer, email: string, password: string)
    requires email != "" && password != ""
    requires load(email).Resolves? && load(email).value.Some?
    requires compare(password, load(email).value.value.password) == Resolves(true)
    ensures var uc := UseCase(Some(Deps(Present(load), Present(compare),
                                        Present(GeneratorAsCollaborator(TokenGenerator.Generator(None), sign)),
                                        Present(update))));
            && Auth(uc, Some(email), Some(password)).result == Rejects(MissingParam("secret"))
            && |Auth(uc, Some(email), Some(password)).calls| == 3
            && Route(Router(Present(UseCaseAsAuth(uc))), LoginRequest(email, password)).response
               == Response(500, ErrorBody(ServerError))
  {
  }

  /** A generator with a secret, wired into a use case whose repository and
      encrypter accept the user: the stored and returned token is the
      signer's token for the user's id under that secret. */
  lemma SignedTokenReachesClient(load: LoadOp, compare: CompareOp, update: UpdateOp,
                                                    sign: TokenGenerator.Signer, secret: string,
                                                    email: string, password: string)
    requires email != "" && password != "" && secret != ""
    requires load(email).Resolves? && load(email).value.Some?
    requires load(email).value.value.id != ""
    requires compare(password, load(email).value.value.password) == Resolves(true)
    requires update(load(email).value.value.id, sign(load(email).value.value.id, secret)).Resolves?
    ensures var u := load(email).value.value;
            var uc := UseCase(Some(Deps(Present(load), Present(compare),
                                        Present(GeneratorAsCollaborator(TokenGenerator.Generator(Some(secret)), sign)),
                                        Present(update))));
            var r := Auth(uc, Some(email), Some(password));
            && r.result == Resolves(sign(u.id, secret))
            && r.calls[|r.calls| - 1] == UpdateCall(u.id, sign(u.id, secret))
  {
  }

  /** A worked login: the repository knows "u1" with hash "hash1", the
      encrypter accepts "correct" against it, the generator issues "tok1". */
  lemma WorkedLogin()
    ensures var uc := UseCase(Some(Deps(
              Present(e => if e == "valid@email.com" then Resolves(Some(User("u1", "hash1"))) else Resolves(None)),
              Present((p, h) => Resolves(p == "correct" && h == "hash1")),
              Present(id => Resolves(if id == "u1" then Some("tok1") else None)),
              Present((id, t) => Resolves(())))));
            && Route(Router(Present(UseCaseAsAuth(uc))), LoginRequest("valid@email.com", "correct")).response
               == Response(200, TokenBody("tok1"))
            && Route(Router(Present(UseCaseAsAuth(uc))), LoginRequest("valid@email.com", "wrong")).response
               == Response(401, ErrorBody(Unauthorized))
            && Route(Router(Present(UseCaseAsAuth(uc))), LoginRequest("other@email.com", "correct")).response
               == Response(401, ErrorBody(Unauthorized))
  {
  }
}

=== FILE: token_generator.dfy ===
/** `TokenGenerator`: issues an access token for a user id by handing the id
    and the configured secret to a JWT signer. The signer is a parameter: its
    algorithm is not part of the model. */
module TokenGenerator {
  import opened Js
  import opened Errors

  /** `jwt.sign(payload, secret)`: a token, or `null`. */
  type Signer = (string, string) -> Option<string>

  /** `new TokenGenerator(secret)`: the constructor stores the secret as given
      and checks nothing. */
  datatype Generator = Generator(secret: Option<string>)

  /** The arguments one call to the signer received. */
  datatype SignCall = SignCall(payload: string, secret: string)

  /** What `generate` settles to, and the signer call it made, if any. */
  datatype Generated = Generated(result: Settled<Option<string>, AppError>, signed: Option<SignCall>)

  /** `generate(id)`: rejects when the secret is falsy, then when the id is
      falsy; otherwise resolves to whatever the signer returns, `null` included. */
  function Generate(g: Generator, id: Option<string>, sign: Signer): (r: Generated)
    ensures r.result == Rejects(MissingParam("secret")) <==> !Truthy(g.secret)
    ensures r.result == Rejects(MissingParam("id")) <==> Truthy(g.secret) && !Truthy(id)
    ensures r.result.Rejects? <==> r.signed.None?
    ensures Truthy(g.secret) && Truthy(id) ==> r.signed == Some(SignCall(id.value, g.secret.value))
    ensures r.signed.Some? ==>
              && r.signed.value == SignCall(id.value, g.secret.value)
              && r.result == Resolves(sign(r.signed.value.payload, r.signed.value.secret))
  {
    if !Truthy(g.secret) then Generated(Rejects(MissingParam("secret")), None)
    else if !Truthy(id) then Generated(Rejects(MissingParam("id")), None)
    else Generated(Resolves(sign(id.value, g.secret.value)), Some(SignCall(id.value, g.secret.value)))
  }

  /** The secret is checked before the id: with neither, the error names the secret. */
  lemma SecretCheckedFirst(id: Option<string>, sign: Signer)
    requires !Truthy(id)
    ensures Generate(Generator(None), id, sign).result == Rejects(MissingParam("secret"))
    ensures Generate(Generator(Some("")), id, sign).result == Rejects(MissingParam("secret"))
  {
  }

  /** The scenarios of the generator's own tests: a `null` from the signer
      comes back as `null`, a token comes back as that token, and the signer
      sees the id and the constructor's secret. */
  lemma SignerScenarios(token: string)
    ensures Generate(Generator(Some("secret")), Some("any_id"), (p, s) => None)
            == Generated(Resolves(None), Some(SignCall("any_id", "secret")))
    ensures Generate(Generator(Some("secret")), Some("any_id"), (p, s) => Some(token)).result
            == Resolves(Some(token))
    ensures Generate(Generator(None), Some("any_id"), (p, s) => Some(token)).result
            == Rejects(MissingParam("secret"))
    ensures Generate(Generator(Some("secret")), None, (p, s) => Some(token)).result
            == Rejects(MissingParam("id"))
  {
  }
}
